=== FILE: README.md ===
# Per-project memory store, modelled in Dafny

This project models the memory store of promptpilot: the `Brain` class in
`brain/memory.py` and the `Embedder` it relies on in `brain/embedder.py`.

A `Brain` belongs to one project identifier. It keeps three structures side
by side:

- a similarity index, which is an id map over a flat L2 index;
- the list of stored texts;
- the list of ids those texts were inserted under.

It persists all three to two files in the project's directory. Adding a text
embeds it with a remote service and inserts the vector under id `len(texts)`.
It then appends the text and the id, and saves. Searching embeds the query
and asks the index for `min(k, ntotal)` neighbours. It maps the returned ids
back to texts through the id list. Deleting removes the directory and resets
memory to an empty index. Opening a project either loads the saved files or
falls back to an empty index. The fallback covers missing files, unreadable
files, and a non-empty index whose width no longer matches the service or
cannot be checked because the service's `"test"` probe fails. The
empty index takes the width of the service's embedding of a probe text, or
1536 when that probe fails (a service error or an empty reply).

Every operation is a pure function. Each takes the in-memory `Brain`, the
project's directory (`Storage.ProjectDir`: does the directory exist, and what
do its two files hold) and the remote service (`Embedding.Remote`, a function
from request to reply). An operation that raises in Python returns
`Raised(error)` together with the state it leaves behind. Python arguments
that may not be strings are `Embedding.Arg = Str(s) | NonStr`. A search
returns only its answer, so in this model it cannot change the store or the
disk.

Modules:

- `Types`: `Option`, `Result`, the error taxonomy, vectors.
- `Embedding`: `brain/embedder.py`.
- `Ranking`: exact k-nearest-neighbour selection over a list of distances.
- `FlatIndex`: the `IndexIDMap(IndexFlatL2(d))` the store builds.
- `Storage`: the project directory, its two files, and `os.path.join`.
- `Memory`: the `Brain` operations.
- `MemoryFacts`: properties that relate several operations.

The index is abstracted as a width `d` and a list of `(id, vector)` entries.
Vectors are integer sequences and distance is squared L2. A search returns
the ids of the nearest entries, padded with `-1`. The model picks one order
among entries at equal distance. Every contract about search results is
stated through `Ranking.IsKnn`, which allows any order among equal
distances.

Behaviours worth noting, all as the code has them:

- Opening a project creates its directory (`os.makedirs` at
  `brain/memory.py:42,47`). So deleting and then reopening a project leaves an
  empty directory on disk, not an absent one (`DeleteThenReopenIsEmpty`).
- Only the `-1` sentinel is skipped when ids are mapped back to texts. Any
  other id missing from `ids` raises `ValueError` from `ids.index`
  (`Error.UnknownId`). An id whose position in `ids` is past the end of
  `texts` raises `IndexError` (`Error.TextOutOfRange`); the id itself is
  never used as a position.
- A missing API key raises `ValueError` (`Error.MissingApiKey`). There is no
  separate configuration error type.
- A save that fails leaves memory one addition ahead of the disk. This is
  because `add_memory` mutates memory before `_save_memory`. In the model a
  save fails only when the project directory is gone. That happens after
  `delete_memory`, which does not recreate the directory
  (`AddAfterDeleteOutrunsDisk`).

Two checks belong to the index library, not to the repository's code, but the
store's behaviour depends on them. Both are modelled as errors:

- a vector whose width differs from the index's `d` (on add and on search);
- a search for fewer than one neighbour (`k < 1` with a non-empty index).

## Model

| member | source | states |
|---|---|---|
| Embedding.NewEmbedder | brain/embedder.py:22-29 | Construction fails with the missing-key error exactly when the key is unset or empty; otherwise the embedder keeps the key and is fixed to `text-embedding-ada-002`. |
| Embedding.Normalise | brain/embedder.py:49 | The normalised text has the same length as the input; each newline becomes a space and every other character stays where it was. |
| Embedding.GetEmbedding | brain/embedder.py:45-59 | An empty or non-string argument is refused with `InvalidInput`; a service failure is returned unchanged; a reply with embeddings gives the first of them, and an empty reply gives `EmptyResponse`; a success is always the first embedding the service returned for the normalised text. |
| Embedding.NormaliseRemovesNewlines | brain/embedder.py:49 | The normalised text contains no newline. |
| Embedding.NormaliseFixesNewlineFree | brain/embedder.py:49 | Text without newlines is sent unchanged. |
| Embedding.NormaliseIdempotent | brain/embedder.py:49 | Normalising twice gives the same text as normalising once. |
| Embedding.InvalidTextNeverReachesRemote | brain/embedder.py:45-46 | For an invalid argument the result is `InvalidInput` whatever the service would answer, so the service is never consulted. |
| Embedding.RequestsUseAdaWithoutNewlines | brain/embedder.py:29-50 | Every request from a constructed embedder names the ada model and carries newline-free input of the original length. |
| Ranking.Ranked | brain/memory.py:158 | Selecting nearest candidates yields `min(k, #candidates)` distinct candidates in ascending distance, none farther than any candidate left out. |
| Ranking.Nearest | brain/memory.py:158 | The flat index's selection over all entries is a valid k-nearest answer (`IsKnn`). |
| Ranking.FirstIsNearest | brain/memory.py:158 | In any valid k-nearest answer with `k >= 1`, the first position is at least as near as every entry. |
| FlatIndex.AddWithId | brain/memory.py:126 | Adding succeeds exactly when the vector has the index's width; then exactly one entry with the given id and vector is appended and nothing else changes. |
| FlatIndex.SqDistZeroIffEqual | brain/memory.py:90 | The L2 distance between two vectors is zero exactly when they are equal. |
| FlatIndex.Search | brain/memory.py:158 | Succeeds exactly when the query has the index's width and `k >= 1`; a wrong width is `DimensionMismatch`, then `k < 1` is `NonPositiveK`; a success has exactly `k` slots holding the ids of some valid k-nearest answer, padded with `-1`. |
| Storage.JoinPath | brain/memory.py:38-40 | The joined path always ends with the name; an absolute name replaces the base; otherwise the result is the base followed directly by the name when the base is empty or ends in `/`, and the base, one `/` and the name otherwise. |
| Storage.ProjectFilesInsideDirectory | brain/memory.py:38-40 | A project's index file and text file are different paths, and both start with the project's directory path. |
| Storage.ReadSnapshot | brain/memory.py:57-63 | Missing exactly when either file is absent; unreadable exactly when both exist and one cannot be read; otherwise the stored index and texts, with missing texts read as none and missing ids read as `0..len(texts)-1`. |
| Storage.WriteSnapshot | brain/memory.py:96-104 | Writing fails exactly when the directory is gone; after a successful write, reading gives back exactly the written index, texts and ids. |
| Storage.RemoveTree | brain/memory.py:177-183 | A complete removal leaves no directory and nothing to load; a failed removal leaves what the filesystem left behind. |
| Memory.EmptyStore | brain/memory.py:77-93 | The empty state is valid and has no entries, texts or ids; its width is that of the service's embedding of the probe text, or 1536 when the service fails. |
| Memory.LoadMemory | brain/memory.py:49-75 | Loading without a readable snapshot gives the empty state. Any result is either the empty state or exactly the snapshot. A non-empty loaded index always has the width the service currently returns for `"test"`. |
| Memory.Open | brain/memory.py:19-47 | An empty or non-string project id is refused before anything else; a missing key is refused next with the disk untouched; otherwise the brain's path is `os.path.join(base, project_id)`, its two file paths are that path joined with `index.faiss` and `text_data.json`, the directory exists with its files unchanged, and the store is what loading that directory gives. |
| Memory.SaveMemory | brain/memory.py:96-104 | Saving fails exactly when the project directory is gone; otherwise the disk then loads back as exactly the in-memory index, texts and ids. |
| Memory.AddMemory | brain/memory.py:106-130 | Invalid text is refused with everything unchanged. A failed embedding re-raises its own error, and an embedding of the wrong width raises `DimensionMismatch`, both with everything unchanged. The add completes exactly when the embedding succeeds with the index's width and the directory exists. When the embedding succeeds with the index's width but the directory is gone, the save fails with `WriteFailed`. Every other failure except a failed save leaves memory and disk unchanged. On completion or a failed save, texts, ids and index each gain exactly one slot: the text, id `old len(texts)`, and its embedding under that id. A failed save leaves the disk untouched; only a completed add saves the new state. |
| Memory.IndexOf | brain/memory.py:166 | Absent exactly when the id is not in the list; otherwise the first position holding it. |
| Memory.Lookup | brain/memory.py:166-167 | One id resolves to the text at its first position in `ids`; an id not in `ids` fails with `UnknownId`, and a position past the end of `texts` fails with `TextOutOfRange`. |
| Memory.Resolve | brain/memory.py:160-167 | Succeeds exactly when every non-`-1` slot resolves; the answer then holds, in slot order, the text each such slot resolves to. A failure is the error of the first slot that does not resolve, every earlier one having resolved. |
| Memory.SearchMemory | brain/memory.py:133-168 | An invalid query is refused. An empty index answers `[]` whatever the service would say. Otherwise a failed embedding's error is passed on unchanged, a wrong-width embedding fails with `DimensionMismatch`, and `k < 1` then fails with `NonPositiveK`. Every answer has at most `ntotal` texts, and at most `k` when non-empty, each one a stored text. |
| Memory.DeleteMemory | brain/memory.py:170-188 | Never raises. Memory is always reset to the valid empty state. An absent directory is left alone, a complete removal leaves none, and the directory exists afterwards only if it existed and its removal failed. |
| MemoryFacts.AddPreservesValid | brain/memory.py:124-128 | Whatever the outcome of an add, a valid store stays valid. A completed add grows `ntotal`, texts and ids by exactly one, with id `n` and the added text at position `n`. |
| MemoryFacts.AddPreservesEmbeds | brain/memory.py:121-128 | If every stored vector is the embedding of the text at its position, that stays true after an add. |
| MemoryFacts.AddAllAppends | brain/memory.py:220-223 | A run of adds that all complete appends the items in order. It keeps the store valid and each vector the embedding of its text, and leaves the disk holding exactly the in-memory state. |
| MemoryFacts.SearchFindsNearestTexts | brain/memory.py:154-167 | On a valid non-empty store, a valid query succeeds exactly when its embedding succeeds with the index's width and `k >= 1`. The answer is then the texts at the `min(k, ntotal)` nearest positions, nearest first. A failed embedding's error is passed on unchanged, a wrong width gives `DimensionMismatch`, and otherwise `k < 1` gives `NonPositiveK`. |
| MemoryFacts.SearchAnswersNearest | brain/memory.py:154-167 | On a valid non-empty store, a search whose embedding has the index's width and `k >= 1` answers exactly the texts at the positions the flat index selects. |
| MemoryFacts.ResolveIdentity | brain/memory.py:166-167 | When ids are the positions, resolving in-range ids gives the texts at those positions. |
| MemoryFacts.RecallStoredText | brain/memory.py:154-167 | If the embedding tells stored texts apart, a one-neighbour search for a stored text returns exactly that text. |
| MemoryFacts.NearestToStoredTextIsIt | brain/memory.py:158 | The nearest entry to a stored text's own vector holds that text. |
| MemoryFacts.LoadKeepsAgreeingSnapshot | brain/memory.py:57-68 | A readable snapshot whose index is empty or matches the service's width is loaded as it is; missing ids become `0..len(texts)-1`. |
| MemoryFacts.LoadDiscardsMismatchedIndex | brain/memory.py:66-73 | A non-empty index whose width differs from the service's, or cannot be checked because the service fails, is replaced by the empty state. |
| MemoryFacts.ReopenRestoresSnapshot | brain/memory.py:19-75 | Opening a directory that holds a snapshot of a store gives back exactly that store when the service's width matches. |
| MemoryFacts.MismatchedProjectAcceptsNewWidth | brain/memory.py:66-91 | A saved non-empty index whose width differs from the service's opens as exactly the empty state (no entries, texts or ids, at the service's current width), and an add of an embedding of the service's current width then completes. |
| MemoryFacts.ReopenAfterAddsRestoresStore | brain/memory.py:244-248 | After a run of completed adds, reopening the same project (same base path and id) gives the same project path and restores exactly the in-memory store, so `ntotal` is unchanged. |
| MemoryFacts.RecallAfterReopen | brain/memory.py:244-255 | After completed adds and a reopen of the same project path, a one-neighbour search for any added text returns that text, provided the embedding tells texts apart. |
| MemoryFacts.RecallAfterAdds | brain/memory.py:154-167 | On the reopened store, a one-neighbour search for the `j`-th added text returns that text. |
| MemoryFacts.DeleteThenReopenIsEmpty | brain/memory.py:170-188 | A complete deletion leaves no directory. Opening the same project again gives the same project path, the empty state and recreates the directory. |
| MemoryFacts.AddAfterDeleteOutrunsDisk | brain/memory.py:126-129 | After a complete deletion, an add on the same brain stores the text in memory, fails to save, and leaves nothing on disk. |

## Left out

- Real file I/O, the index library's binary format and JSON encoding: the
  directory is an abstract value whose files are absent, unreadable or hold
  a typed value. JSON whose `texts`/`ids` have the wrong types is not
  distinguished from readable JSON.
- Floating point: vectors are integer sequences and distance is squared L2.
- The remote service is deterministic. So `_load_memory`'s repeated
  embedding of `"test"` (brain/memory.py:67) is one call, and a service
  whose answers change between calls is not modelled.
- `load_dotenv`, the global `openai.api_key` assignment, and the HTTP
  request itself: the key is a parameter and the service is an oracle.
- Failures of `os.makedirs`, a full disk, and a write where the index file
  succeeds but the JSON file fails. A save fails only when the directory is
  gone.
- `_save_memory`'s `index is None` branch: every `Brain` has an index from
  construction on, so the branch cannot be reached.
- Non-integer `k` and other Python type errors on arguments other than the
  text, query and project id.
- `print` logging and the `__main__` demonstrations. The demonstrations'
  asserts appear only as properties (`AddAllAppends`, `RecallAfterReopen`,
  `DeleteThenReopenIsEmpty`).
- Concurrent access to one project: the code has no locking.
- Python default arguments: `store_base_path="brain/store"` in `Brain.__init__`
  (brain/memory.py:19) and `k=5` in `search_memory` (brain/memory.py:133).
  `Open` and `SearchMemory` always take the base path and `k` explicitly.
- Storage.JoinPath: follows POSIX `os.path.join` only; Windows drive letters
  and backslash separators are not modelled.
- Memory.SearchMemory: on a store that is not valid (inconsistent files on
  disk), the contract only bounds the answer and says it holds stored texts.
  Which texts come back there is left unstated.

=== FILE: embedding.dfy ===
/** The embedding provider (brain/embedder.py): construction from the
    environment's API key, argument validation, newline normalisation, and
    one call to a remote service that is modelled as an oracle. */
module Embedding {
  import opened Types

  /** The model every embedder is fixed to. */
  const AdaModel: string := "text-embedding-ada-002"

  /** A Python argument that is meant to be a string but may be anything. */
  datatype Arg = Str(s: string) | NonStr

  /** The negation of the guard `not x or not isinstance(x, str)` with which
      `get_embedding`, `Brain.__init__`, `add_memory` and `search_memory`
      refuse their argument. */
  predicate NonEmptyString(a: Arg) {
    a.Str? && |a.s| > 0
  }

  datatype Embedder = Embedder(apiKey: string, modelName: string)

  /** What is sent to the remote service, and what comes back. */
  datatype Request = Request(model: string, input: string)
  datatype Reply = Embeddings(data: seq<Vector>) | ServiceError(failure: ProviderFailure)

  /** The remote service: deterministic, total, otherwise unknown. */
  type Remote = Request -> Reply

  /** `Embedder()`: refuses a missing or empty key, otherwise fixes the model. */
  function NewEmbedder(apiKey: Option<string>): (r: Result<Embedder>)
    ensures r.Failure? <==> apiKey.None? || apiKey.value == ""
    ensures r.Failure? ==> r.error == MissingApiKey
    ensures r.Success? ==> r.value.apiKey == apiKey.value && r.value.modelName == AdaModel
  {
    match apiKey
    case None => Failure(MissingApiKey)
    case Some(key) => if key == "" then Failure(MissingApiKey) else Success(Embedder(key, AdaModel))
  }

  /** `text.replace("\n", " ")`, one character at a time. */
  function Normalise(s: string): (r: string)
    ensures |r| == |s|
    ensures forall i :: 0 <= i < |s| ==> r[i] == if s[i] == '\n' then ' ' else s[i]
  {
    if s == [] then []
    else (if s[0] == '\n' then " " else [s[0]]) + Normalise(s[1..])
  }

  /** The request `get_embedding` sends for `text`. */
  function RequestFor(e: Embedder, text: string): Request {
    Request(e.modelName, Normalise(text))
  }

  /** `get_embedding`: validate, normalise, call the service once, return the
      first embedding; failures of the service are passed on unchanged. */
  function GetEmbedding(e: Embedder, text: Arg, remote: Remote): (r: Result<Vector>)
    ensures !NonEmptyString(text) ==> r == Failure(InvalidInput)
    ensures NonEmptyString(text) && remote(RequestFor(e, text.s)).ServiceError? ==>
              r == Failure(Provider(remote(RequestFor(e, text.s)).failure))
    ensures NonEmptyString(text) && remote(RequestFor(e, text.s)).Embeddings? ==>
              r == (if |remote(RequestFor(e, text.s)).data| == 0 then Failure(EmptyResponse)
                    else Success(remote(RequestFor(e, text.s)).data[0]))
    ensures r.Success? ==>
              NonEmptyString(text)
              && remote(RequestFor(e, text.s)).Embeddings?
              && |remote(RequestFor(e, text.s)).data| > 0
              && r.value == remote(RequestFor(e, text.s)).data[0]
  {
    if !NonEmptyString(text) then Failure(InvalidInput)
    else
      match remote(RequestFor(e, text.s))
      case ServiceError(f) => Failure(Provider(f))
      case Embeddings(data) => if |data| == 0 then Failure(EmptyResponse) else Success(data[0])
  }

  /** The text sent to the service never holds a newline. */
  lemma NormaliseRemovesNewlines(s: string)
    ensures '\n' !in Normalise(s)
  {
  }

  /** Text without newlines is sent as it is. */
  lemma NormaliseFixesNewlineFree(s: string)
    requires '\n' !in s
    ensures Normalise(s) == s
  {
  }

  /** Normalising twice is normalising once. */
  lemma NormaliseIdempotent(s: string)
    ensures Normalise(Normalise(s)) == Normalise(s)
  {
    NormaliseRemovesNewlines(s);
    NormaliseFixesNewlineFree(Normalise(s));
  }

  /** An invalid argument is refused whatever the service would have answered. */
  lemma InvalidTextNeverReachesRemote(e: Embedder, text: Arg, remote1: Remote, remote2: Remote)
    requires !NonEmptyString(text)
    ensures GetEmbedding(e, text, remote1) == GetEmbedding(e, text, remote2) == Failure(InvalidInput)
  {
  }

  /** An embedder built from the environment always asks the ada model, with newline-free input. */
  lemma RequestsUseAdaWithoutNewlines(apiKey: Option<string>, text: string)
    requires NewEmbedder(apiKey).Success?
    ensures RequestFor(NewEmbedder(apiKey).value, text).model == AdaModel
    ensures '\n' !in RequestFor(NewEmbedder(apiKey).value, text).input
    ensures |RequestFor(NewEmbedder(apiKey).value, text).input| == |text|
  {
    NormaliseRemovesNewlines(text);
  }
}

=== FILE: flat_index.dfy ===
/** The similarity index the store builds: an id map over a flat L2 index
    (`IndexIDMap(IndexFlatL2(d))`). Each entry pairs a caller-chosen id with
    a vector of the index's fixed width `d`; a search is exact, returning the
    ids of the nearest entries by squared Euclidean distance, padded with
    `NoResult` when fewer entries exist than were asked for. */
module FlatIndex {
  import opened Types
  import opened Ranking

  /** The id the index reports in an empty result slot. */
  const NoResult: int := -1

  datatype Entry = Entry(id: int, vec: Vector)

  datatype IndexData = IndexData(d: nat, entries: seq<Entry>)

  predicate WidthsAgree(ix: IndexData) {
    forall i :: 0 <= i < |ix.entries| ==> |ix.entries[i].vec| == ix.d
  }

  /** The index library never holds a vector whose width is not `d`. */
  type Index = ix: IndexData | WidthsAgree(ix) witness IndexData(0, [])

  /** `index.ntotal`. */
  function NTotal(ix: Index): nat {
    |ix.entries|
  }

  /** A fresh index of width `d`. */
  function Empty(d: nat): (ix: Index)
    ensures ix.d == d && NTotal(ix) == 0
  {
    IndexData(d, [])
  }

  /** `add_with_ids` for one vector: the library refuses a vector of the
      wrong width and otherwise appends, without checking the id. */
  function AddWithId(ix: Index, v: Vector, id: int): (r: Result<Index>)
    ensures r.Success? <==> |v| == ix.d
    ensures r.Failure? ==> r.error == DimensionMismatch
    ensures r.Success? ==> r.value.d == ix.d && r.value.entries == ix.entries + [Entry(id, v)]
  {
    if |v| != ix.d then Failure(DimensionMismatch)
    else
      var ix': IndexData := IndexData(ix.d, ix.entries + [Entry(id, v)]);
      assert forall i :: 0 <= i < |ix.entries| ==> ix'.entries[i] == ix.entries[i];
      Success(ix')
  }

  /** Squared Euclidean distance. */
  function SqDist(a: Vector, b: Vector): nat
    requires |a| == |b|
  {
    if |a| == 0 then 0
    else (a[0] - b[0]) * (a[0] - b[0]) + SqDist(a[1..], b[1..])
  }

  /** Distance zero exactly between equal vectors. */
  lemma {:induction false} SqDistZeroIffEqual(a: Vector, b: Vector)
    requires |a| == |b|
    ensures SqDist(a, b) == 0 <==> a == b
  {
    if |a| > 0 {
      SqDistZeroIffEqual(a[1..], b[1..]);
      if a[0] != b[0] {
        assert (a[0] - b[0]) * (a[0] - b[0]) > 0;
      }
      if a[1..] == b[1..] && a[0] == b[0] {
        assert a == [a[0]] + a[1..];
        assert b == [b[0]] + b[1..];
      }
    }
  }

  /** The distance from the query to each entry, in entry order. */
  function Distances(ix: Index, q: Vector): (ds: seq<nat>)
    requires |q| == ix.d
    ensures |ds| == NTotal(ix)
    ensures forall i :: 0 <= i < |ds| ==> ds[i] == SqDist(ix.entries[i].vec, q)
  {
    seq(|ix.entries|, i requires 0 <= i < |ix.entries| => SqDist(ix.entries[i].vec, q))
  }

  /** The `k` result slots for the selected positions `ps`: their ids, then `NoResult`. */
  function Labels(ix: Index, ps: seq<nat>, k: nat): (ls: seq<int>)
    requires forall i :: 0 <= i < |ps| ==> ps[i] < |ix.entries|
    requires |ps| <= k
    ensures |ls| == k
    ensures forall i :: 0 <= i < |ps| ==> ls[i] == ix.entries[ps[i]].id
    ensures forall i :: |ps| <= i < k ==> ls[i] == NoResult
  {
    seq(k, i requires 0 <= i < k => if i < |ps| then ix.entries[ps[i]].id else NoResult)
  }

  /** `search` for one query vector: the ids of the `k` nearest entries,
      nearest first, padded with `NoResult`. */
  function Search(ix: Index, q: Vector, k: int): (r: Result<seq<int>>)
    ensures |q| != ix.d ==> r == Failure(DimensionMismatch)
    ensures |q| == ix.d && k < 1 ==> r == Failure(NonPositiveK)
    ensures r.Success? <==> |q| == ix.d && k >= 1
    ensures r.Success? ==>
              && |q| == ix.d && k >= 1
              && exists ps :: IsKnn(Distances(ix, q), k, ps) && r.value == Labels(ix, ps, k)
  {
    if |q| != ix.d then Failure(DimensionMismatch)
    else if k < 1 then Failure(NonPositiveK)
    else
      var ps := Nearest(Distances(ix, q), k);
      Success(Labels(ix, ps, k))
  }
}

=== FILE: memory.dfy ===
/** The per-project memory store (`Brain` in brain/memory.py): a similarity
    index kept side by side with the list of stored texts and the list of ids
    they were inserted under, persisted to the project's directory after each
    addition. Every operation is a pure function of the store, the project's
    directory and the remote embedding service; an operation that raises
    reports `Raised` together with whatever state it left behind. */
module Memory {
  import opened Types
  import opened Embedding
  import opened FlatIndex
  import opened Storage

  /** The width assumed when the embedding service cannot be probed (ada-002's). */
  const FallbackDimension: nat := 1536

  /** The texts embedded to learn the service's current width. */
  const DimensionProbe: string := "initial_dimension_check"
  const LoadProbe: string := "test"

  /** The in-memory state: index, texts and ids. */
  datatype Store = Store(index: Index, texts: seq<string>, ids: seq<int>)

  /** What every store built by adding to an empty one satisfies: the three
      parallel structures have one slot per memory, and the memory at
      position i was inserted under id i. */
  predicate Valid(s: Store) {
    && |s.texts| == |s.ids| == NTotal(s.index)
    && (forall i :: 0 <= i < |s.ids| ==> s.ids[i] == i)
    && (forall i :: 0 <= i < |s.index.entries| ==> s.index.entries[i].id == i)
  }

  datatype Brain = Brain(
    projectId: string,
    projectPath: string,
    indexFile: string,
    textDataFile: string,
    embedder: Embedder,
    store: Store)

  datatype Status = Done | Raised(error: Error)

  /** The state an operation leaves behind, in memory and on disk, and whether it raised. */
  datatype Step = Step(brain: Brain, disk: ProjectDir, status: Status)

  /** The outcome of `Brain(project_id)` and the project directory afterwards. */
  datatype Opened = Opened(brain: Result<Brain>, disk: ProjectDir)

  /** The width of the service's embedding of the probe text, or the fallback. */
  function EmptyDimension(e: Embedder, remote: Remote): nat {
    match GetEmbedding(e, Str(DimensionProbe), remote)
    case Success(v) => |v|
    case Failure(_) => FallbackDimension
  }

  /** `_initialise_empty_index`: a fresh index whose width is the service's
      current width, or 1536 when the service fails. */
  function EmptyStore(e: Embedder, remote: Remote): (s: Store)
    ensures Valid(s)
    ensures NTotal(s.index) == 0 && s.texts == [] && s.ids == []
    ensures GetEmbedding(e, Str(DimensionProbe), remote).Success? ==>
              s.index.d == |GetEmbedding(e, Str(DimensionProbe), remote).value|
    ensures GetEmbedding(e, Str(DimensionProbe), remote).Failure? ==> s.index.d == FallbackDimension
  {
    Store(Empty(EmptyDimension(e, remote)), [], [])
  }

  /** `_load_memory`: the snapshot on disk when both files read and a
      non-empty index agrees with the service's current width; otherwise the
      empty store. */
  function LoadMemory(e: Embedder, remote: Remote, pd: ProjectDir): (s: Store)
    ensures !ReadSnapshot(pd).Loaded? ==> s == EmptyStore(e, remote)
    ensures s == EmptyStore(e, remote) ||
            (ReadSnapshot(pd).Loaded? &&
             s == Store(ReadSnapshot(pd).index, ReadSnapshot(pd).texts, ReadSnapshot(pd).ids))
    ensures NTotal(s.index) > 0 ==>
              GetEmbedding(e, Str(LoadProbe), remote).Success? &&
              |GetEmbedding(e, Str(LoadProbe), remote).value| == s.index.d
  {
    match ReadSnapshot(pd)
    case Missing => EmptyStore(e, remote)
    case Unreadable => EmptyStore(e, remote)
    case Loaded(ix, texts, ids) =>
      if NTotal(ix) == 0 then Store(ix, texts, ids)
      else
        match GetEmbedding(e, Str(LoadProbe), remote)
        case Failure(_) => EmptyStore(e, remote)
        case Success(v) => if ix.d != |v| then EmptyStore(e, remote) else Store(ix, texts, ids)
  }

  /** `Brain(project_id, store_base_path)`: validates the id, builds the
      embedder, creates the project directory and loads what it holds. */
  function Open(projectId: Arg, base: string, apiKey: Option<string>, remote: Remote, pd: ProjectDir): (r: Opened)
    ensures !NonEmptyString(projectId) ==> r == Opened(Failure(InvalidInput), pd)
    ensures NonEmptyString(projectId) && NewEmbedder(apiKey).Failure? ==> r == Opened(Failure(MissingApiKey), pd)
    ensures r.brain.Success? <==> NonEmptyString(projectId) && NewEmbedder(apiKey).Success?
    ensures r.brain.Success? ==>
              && r.brain.value.projectId == projectId.s
              && r.brain.value.projectPath == JoinPath(base, projectId.s)
              && r.brain.value.indexFile == JoinPath(r.brain.value.projectPath, IndexFileName)
              && r.brain.value.textDataFile == JoinPath(r.brain.value.projectPath, TextDataFileName)
              && r.brain.value.embedder.modelName == AdaModel
              && r.disk.dirExists
              && r.disk.indexFile == pd.indexFile && r.disk.textFile == pd.textFile
              && r.brain.value.store == LoadMemory(r.brain.value.embedder, remote, r.disk)
  {
    if !NonEmptyString(projectId) then Opened(Failure(InvalidInput), pd)
    else
      match NewEmbedder(apiKey)
      case Failure(err) => Opened(Failure(err), pd)
      case Success(e) =>
        var path := JoinPath(base, projectId.s);
        var pd' := MakeDirs(pd);
        var b := Brain(projectId.s, path, JoinPath(path, IndexFileName), JoinPath(path, TextDataFileName),
                       e, LoadMemory(e, remote, pd'));
        Opened(Success(b), pd')
  }

  /** `_save_memory`: writes the index file, then the JSON file. */
  function SaveMemory(b: Brain, pd: ProjectDir): (r: Result<ProjectDir>)
    ensures r.Failure? <==> !pd.dirExists
    ensures r.Success? ==> ReadSnapshot(r.value) == Loaded(b.store.index, b.store.texts, b.store.ids)
  {
    WriteSnapshot(pd, b.store.index, b.store.texts, b.store.ids)
  }

  /** `add_memory`: validates, embeds, inserts under the next id, appends the
      text and the id, then saves. Everything before the save leaves the
      state untouched when it raises; a failed save leaves memory one
      addition ahead of the disk. */
  function AddMemory(b: Brain, pd: ProjectDir, text: Arg, remote: Remote): (r: Step)
    ensures !NonEmptyString(text) ==> r == Step(b, pd, Raised(InvalidInput))
    ensures r.brain.(store := b.store) == b
    ensures NonEmptyString(text) && GetEmbedding(b.embedder, text, remote).Failure? ==>
              r == Step(b, pd, Raised(GetEmbedding(b.embedder, text, remote).error))
    ensures NonEmptyString(text) && GetEmbedding(b.embedder, text, remote).Success? &&
            |GetEmbedding(b.embedder, text, remote).value| != b.store.index.d ==>
              r == Step(b, pd, Raised(DimensionMismatch))
    ensures r.status.Done? <==>
              && NonEmptyString(text)
              && GetEmbedding(b.embedder, text, remote).Success?
              && |GetEmbedding(b.embedder, text, remote).value| == b.store.index.d
              && pd.dirExists
    ensures r.status.Raised? && r.status.error != WriteFailed ==> r.brain == b && r.disk == pd
    ensures r.status == Raised(WriteFailed) ==> !pd.dirExists && r.disk == pd
    ensures NonEmptyString(text) && GetEmbedding(b.embedder, text, remote).Success? &&
            |GetEmbedding(b.embedder, text, remote).value| == b.store.index.d && !pd.dirExists ==>
              r.status == Raised(WriteFailed)
    ensures r.status.Done? || r.status == Raised(WriteFailed) ==>
              && NonEmptyString(text)
              && GetEmbedding(b.embedder, text, remote).Success?
              && r.brain.store.texts == b.store.texts + [text.s]
              && r.brain.store.ids == b.store.ids + [|b.store.texts|]
              && r.brain.store.index.d == b.store.index.d
              && r.brain.store.index.entries ==
                   b.store.index.entries + [Entry(|b.store.texts|, GetEmbedding(b.embedder, text, remote).value)]
    ensures r.status.Done? ==>
              ReadSnapshot(r.disk) == Loaded(r.brain.store.index, r.brain.store.texts, r.brain.store.ids)
  {
    if !NonEmptyString(text) then Step(b, pd, Raised(InvalidInput))
    else
      match GetEmbedding(b.embedder, text, remote)
      case Failure(err) => Step(b, pd, Raised(err))
      case Success(v) =>
        var newId := |b.store.texts|;
        match AddWithId(b.store.index, v, newId)
        case Failure(err) => Step(b, pd, Raised(err))
        case Success(ix) =>
          var b' := b.(store := Store(ix, b.store.texts + [text.s], b.store.ids + [newId]));
          match SaveMemory(b', pd)
          case Failure(err) => Step(b', pd, Raised(err))
          case Success(pd') => Step(b', pd', Done)
  }

  /** `list.index`: the first position holding `x`. */
  function IndexOf(xs: seq<int>, x: int): (r: Option<nat>)
    ensures r.None? <==> x !in xs
    ensures r.Some? ==> r.value < |xs| && xs[r.value] == x && forall j :: 0 <= j < r.value ==> xs[j] != x
  {
    if xs == [] then None
    else if xs[0] == x then Some(0)
    else
      match IndexOf(xs[1..], x)
      case None => None
      case Some(p) => Some(p + 1)
  }

  /** The slots of a search answer that hold a real id, in order. */
  function Hits(labels: seq<int>): (h: seq<int>)
    ensures |h| <= |labels|
    ensures forall x :: x in h <==> x in labels && x != NoResult
  {
    if labels == [] then []
    else (if labels[0] == NoResult then [] else [labels[0]]) + Hits(labels[1..])
  }

  /** `texts[ids.index(id)]`: `ids.index` raises `ValueError` for an id it
      does not hold, and the subscript raises `IndexError` for a position
      past the end of `texts`. */
  function Lookup(id: int, ids: seq<int>, texts: seq<string>): (r: Result<string>)
    ensures r.Success? <==> IndexOf(ids, id).Some? && IndexOf(ids, id).value < |texts|
    ensures r.Success? ==> r.value == texts[IndexOf(ids, id).value] && r.value in texts
    ensures IndexOf(ids, id).None? ==> r == Failure(UnknownId(id))
    ensures IndexOf(ids, id).Some? && IndexOf(ids, id).value >= |texts| ==>
              r == Failure(TextOutOfRange(IndexOf(ids, id).value))
  {
    match IndexOf(ids, id)
    case None => Failure(UnknownId(id))
    case Some(p) => if p >= |texts| then Failure(TextOutOfRange(p)) else Success(texts[p])
  }

  /** Maps each returned id, in order, to the text at its position in `ids`,
      skipping `NoResult`; the first id with no text raises. */
  function Resolve(labels: seq<int>, ids: seq<int>, texts: seq<string>): (r: Result<seq<string>>)
    ensures r.Success? <==> forall i :: 0 <= i < |Hits(labels)| ==> Lookup(Hits(labels)[i], ids, texts).Success?
    ensures r.Success? ==>
              && |r.value| == |Hits(labels)|
              && forall i :: 0 <= i < |r.value| ==> Lookup(Hits(labels)[i], ids, texts) == Success(r.value[i])
    ensures r.Failure? ==>
              exists i :: 0 <= i < |Hits(labels)| && Lookup(Hits(labels)[i], ids, texts) == Failure(r.error)
                          && forall j :: 0 <= j < i ==> Lookup(Hits(labels)[j], ids, texts).Success?
    ensures r.Success? ==> forall i :: 0 <= i < |r.value| ==> r.value[i] in texts
    ensures r.Failure? ==> r.error.UnknownId? || r.error.TextOutOfRange?
  {
    if labels == [] then Success([])
    else if labels[0] == NoResult then
      assert Hits(labels) == Hits(labels[1..]);
      Resolve(labels[1..], ids, texts)
    else
      assert Hits(labels) == [labels[0]] + Hits(labels[1..]);
      match Lookup(labels[0], ids, texts)
      case Failure(err) => assert Hits(labels)[0] == labels[0]; Failure(err)
      case Success(t) =>
        match Resolve(labels[1..], ids, texts)
        case Failure(err) => FailureShifts(labels, ids, texts, err); Failure(err)
        case Success(rest) => Success([t] + rest)
  }

  /** A failing hit after the first slot is a failing hit of the whole answer,
      with every hit before it resolved, when the first slot resolves. */
  lemma FailureShifts(labels: seq<int>, ids: seq<int>, texts: seq<string>, err: Error)
    requires labels != [] && labels[0] != NoResult && Lookup(labels[0], ids, texts).Success?
    requires exists i :: 0 <= i < |Hits(labels[1..])| && Lookup(Hits(labels[1..])[i], ids, texts) == Failure(err)
                         && forall j :: 0 <= j < i ==> Lookup(Hits(labels[1..])[j], ids, texts).Success?
    ensures exists i :: 0 <= i < |Hits(labels)| && Lookup(Hits(labels)[i], ids, texts) == Failure(err)
                        && forall j :: 0 <= j < i ==> Lookup(Hits(labels)[j], ids, texts).Success?
  {
    var h := Hits(labels[1..]);
    var i :| 0 <= i < |h| && Lookup(h[i], ids, texts) == Failure(err)
             && forall j :: 0 <= j < i ==> Lookup(h[j], ids, texts).Success?;
    assert Hits(labels) == [labels[0]] + h;
    assert Hits(labels)[i + 1] == h[i];
  }

  /** `search_memory`: validates, answers an empty index without consulting
      the service, otherwise embeds the query, asks the index for
      `min(k, ntotal)` neighbours and maps their ids back to texts. */
  function SearchMemory(b: Brain, query: Arg, k: int, remote: Remote): (r: Result<seq<string>>)
    ensures !NonEmptyString(query) ==> r == Failure(InvalidInput)
    ensures NonEmptyString(query) && NTotal(b.store.index) == 0 ==> r == Success([])
    ensures NonEmptyString(query) && NTotal(b.store.index) > 0 && GetEmbedding(b.embedder, query, remote).Failure? ==>
              r == Failure(GetEmbedding(b.embedder, query, remote).error)
    ensures NonEmptyString(query) && NTotal(b.store.index) > 0 && GetEmbedding(b.embedder, query, remote).Success? ==>
              && (|GetEmbedding(b.embedder, query, remote).value| != b.store.index.d ==> r == Failure(DimensionMismatch))
              && (|GetEmbedding(b.embedder, query, remote).value| == b.store.index.d && k < 1 ==>
                    r == Failure(NonPositiveK))
    ensures r.Success? ==> |r.value| <= NTotal(b.store.index)
    ensures r.Success? && r.value != [] ==> |r.value| <= k
    ensures r.Success? ==> forall i :: 0 <= i < |r.value| ==> r.value[i] in b.store.texts
  {
    if !NonEmptyString(query) then Failure(InvalidInput)
    else if NTotal(b.store.index) == 0 then Success([])
    else
      match GetEmbedding(b.embedder, query, remote)
      case Failure(err) => Failure(err)
      case Success(q) =>
        match Search(b.store.index, q, Min(k, NTotal(b.store.index)))
        case Failure(err) => Failure(err)
        case Success(labels) => Resolve(labels, b.store.ids, b.store.texts)
  }

  /** `delete_memory`: removes the project directory if it exists, swallowing
      a failure, and resets memory to the empty store. The directory is not
      recreated. */
  function DeleteMemory(b: Brain, pd: ProjectDir, removal: Removal, remote: Remote): (r: Step)
    ensures r.status == Done
    ensures r.brain == b.(store := EmptyStore(b.embedder, remote))
    ensures Valid(r.brain.store) && NTotal(r.brain.store.index) == 0
    ensures r.brain.store.texts == [] && r.brain.store.ids == []
    ensures !pd.dirExists ==> r.disk == pd
    ensures pd.dirExists && removal.Removed? ==> !r.disk.dirExists && ReadSnapshot(r.disk) == Missing
    ensures r.disk.dirExists ==> pd.dirExists && removal.RemoveFailed?
  {
    var pd' := if pd.dirExists then RemoveTree(pd, removal) else pd;
    Step(b.(store := EmptyStore(b.embedder, remote)), pd', Done)
  }
}

=== FILE: memory_facts.dfy ===
/** Properties of the memory store that relate several operations: the
    validity invariant, what a search returns, the round trip through the
    disk, and what happens around a deletion. */
module MemoryFacts {
  import opened Types
  import opened Embedding
  import opened Ranking
  import opened FlatIndex
  import opened Storage
  import opened Memory

  /** The texts at positions `ps`. */
  function TextsAt(texts: seq<string>, ps: seq<nat>): (r: seq<string>)
    requires forall i :: 0 <= i < |ps| ==> ps[i] < |texts|
    ensures |r| == |ps|
    ensures forall i :: 0 <= i < |ps| ==> r[i] == texts[ps[i]]
  {
    seq(|ps|, i requires 0 <= i < |ps| => texts[ps[i]])
  }

  /** Each stored vector is the service's embedding of the text at its position. */
  ghost predicate Embeds(s: Store, e: Embedder, remote: Remote) {
    forall i :: 0 <= i < |s.texts| && i < |s.index.entries| ==>
      GetEmbedding(e, Str(s.texts[i]), remote) == Success(s.index.entries[i].vec)
  }

  /** The service gives different texts among `texts` different embeddings. */
  ghost predicate Distinguishes(texts: seq<string>, e: Embedder, remote: Remote) {
    forall i, j ::
      0 <= i < |texts| && 0 <= j < |texts| &&
      GetEmbedding(e, Str(texts[i]), remote) == GetEmbedding(e, Str(texts[j]), remote)
      ==> texts[i] == texts[j]
  }

  /** Adding keeps the store valid whatever the outcome, and a completed
      addition puts the text and its id at position `old |texts|`. */
  lemma AddPreservesValid(b: Brain, pd: ProjectDir, text: Arg, remote: Remote)
    requires Valid(b.store)
    ensures Valid(AddMemory(b, pd, text, remote).brain.store)
    ensures AddMemory(b, pd, text, remote).status.Done? ==>
              var s := AddMemory(b, pd, text, remote).brain.store;
              var n := |b.store.texts|;
              && NTotal(s.index) == NTotal(b.store.index) + 1
              && |s.texts| == |s.ids| == n + 1
              && s.ids[n] == n && s.texts[n] == text.s
  {
    var r := AddMemory(b, pd, text, remote);
    if r.brain.store != b.store {
      var s := r.brain.store;
      var n := |b.store.texts|;
      forall i | 0 <= i < |s.ids| ensures s.ids[i] == i {
        if i < n { assert s.ids[i] == b.store.ids[i]; }
      }
      forall i | 0 <= i < |s.index.entries| ensures s.index.entries[i].id == i {
        if i < n { assert s.index.entries[i] == b.store.index.entries[i]; }
      }
    }
  }

  /** Adding also keeps every stored vector the embedding of its text. */
  lemma AddPreservesEmbeds(b: Brain, pd: ProjectDir, text: Arg, remote: Remote)
    requires Valid(b.store)
    requires Embeds(b.store, b.embedder, remote)
    ensures Embeds(AddMemory(b, pd, text, remote).brain.store, b.embedder, remote)
  {
    var r := AddMemory(b, pd, text, remote);
    if r.brain.store != b.store {
      var s := r.brain.store;
      var n := |b.store.texts|;
      forall i | 0 <= i < |s.texts| && i < |s.index.entries|
        ensures GetEmbedding(b.embedder, Str(s.texts[i]), remote) == Success(s.index.entries[i].vec)
      {
        if i < n {
          assert s.texts[i] == b.store.texts[i];
          assert s.index.entries[i] == b.store.index.entries[i];
        } else {
          assert s.texts[i] == text.s && text == Str(text.s);
        }
      }
    }
  }

  /** Adds `items` one after another, stopping at the first that raises. */
  function AddAll(b: Brain, pd: ProjectDir, items: seq<string>, remote: Remote): Step
    decreases |items|
  {
    if items == [] then Step(b, pd, Done)
    else
      var r := AddMemory(b, pd, Str(items[0]), remote);
      if r.status.Raised? then r else AddAll(r.brain, r.disk, items[1..], remote)
  }

  /** A run of additions that all complete appends the items in order, keeps
      the store valid and the vectors faithful, and leaves exactly the
      in-memory state on disk. */
  lemma {:induction false} AddAllAppends(b: Brain, pd: ProjectDir, items: seq<string>, remote: Remote)
    requires Valid(b.store)
    requires Embeds(b.store, b.embedder, remote)
    requires AddAll(b, pd, items, remote).status.Done?
    ensures var r := AddAll(b, pd, items, remote);
            && Valid(r.brain.store)
            && Embeds(r.brain.store, b.embedder, remote)
            && r.brain == b.(store := r.brain.store)
            && r.brain.store.texts == b.store.texts + items
            && r.brain.store.index.d == b.store.index.d
            && (forall j :: 0 <= j < |items| ==> items[j] != [])
            && (items != [] ==>
                  ReadSnapshot(r.disk) == Loaded(r.brain.store.index, r.brain.store.texts, r.brain.store.ids))
    decreases |items|
  {
    if items != [] {
      var r1 := AddMemory(b, pd, Str(items[0]), remote);
      AddPreservesValid(b, pd, Str(items[0]), remote);
      AddPreservesEmbeds(b, pd, Str(items[0]), remote);
      assert r1.brain.embedder == b.embedder;
      AddAllAppends(r1.brain, r1.disk, items[1..], remote);
      assert items == [items[0]] + items[1..];
    }
  }

  /** On a valid store, a search that gets past validation and the empty
      check returns the texts of the `min(k, ntotal)` entries nearest to the
      query's embedding, nearest first; the only failures left are the
      service's and the index library's. */
  lemma SearchFindsNearestTexts(b: Brain, query: Arg, k: int, remote: Remote)
    requires Valid(b.store)
    requires NonEmptyString(query) && NTotal(b.store.index) > 0
    ensures var r := SearchMemory(b, query, k, remote);
            r.Failure? ==> r.error.Provider? || r.error == EmptyResponse ||
                           r.error == DimensionMismatch || r.error == NonPositiveK
    ensures GetEmbedding(b.embedder, query, remote).Failure? ==>
              SearchMemory(b, query, k, remote) == Failure(GetEmbedding(b.embedder, query, remote).error)
    ensures GetEmbedding(b.embedder, query, remote).Success? &&
            |GetEmbedding(b.embedder, query, remote).value| != b.store.index.d ==>
              SearchMemory(b, query, k, remote) == Failure(DimensionMismatch)
    ensures GetEmbedding(b.embedder, query, remote).Success? &&
            |GetEmbedding(b.embedder, query, remote).value| == b.store.index.d && k < 1 ==>
              SearchMemory(b, query, k, remote) == Failure(NonPositiveK)
    ensures var r := SearchMemory(b, query, k, remote);
            r.Success? <==>
              && GetEmbedding(b.embedder, query, remote).Success?
              && |GetEmbedding(b.embedder, query, remote).value| == b.store.index.d
              && k >= 1
    ensures var r := SearchMemory(b, query, k, remote);
            r.Success? ==>
              && GetEmbedding(b.embedder, query, remote).Success?
              && |GetEmbedding(b.embedder, query, remote).value| == b.store.index.d
              && exists ps ::
                   && IsKnn(Distances(b.store.index, GetEmbedding(b.embedder, query, remote).value),
                            Min(k, NTotal(b.store.index)), ps)
                   && (forall i :: 0 <= i < |ps| ==> ps[i] < |b.store.texts|)
                   && r.value == TextsAt(b.store.texts, ps)
  {
    var emb := GetEmbedding(b.embedder, query, remote);
    if emb.Success? && |emb.value| == b.store.index.d && k >= 1 {
      SearchAnswersNearest(b, query, k, remote);
    }
  }

  /** The success case of `SearchFindsNearestTexts`: the answer is the texts
      at the positions the flat index selects. */
  lemma SearchAnswersNearest(b: Brain, query: Arg, k: int, remote: Remote)
    requires Valid(b.store)
    requires NonEmptyString(query) && NTotal(b.store.index) > 0 && k >= 1
    requires GetEmbedding(b.embedder, query, remote).Success?
    requires |GetEmbedding(b.embedder, query, remote).value| == b.store.index.d
    ensures var ps := Nearest(Distances(b.store.index, GetEmbedding(b.embedder, query, remote).value),
                              Min(k, NTotal(b.store.index)));
            && (forall i :: 0 <= i < |ps| ==> ps[i] < |b.store.texts|)
            && SearchMemory(b, query, k, remote) == Success(TextsAt(b.store.texts, ps))
  {
    var n := NTotal(b.store.index);
    var ix := b.store.index;
    var q := GetEmbedding(b.embedder, query, remote).value;
    var kk: nat := Min(k, n);
    var ps := Nearest(Distances(ix, q), kk);
    var labels := Labels(ix, ps, kk);
    assert Search(ix, q, kk) == Success(labels);
    assert labels == ps by {
      forall i | 0 <= i < kk ensures labels[i] == ps[i] {
        assert ix.entries[ps[i]].id == ps[i];
      }
    }
    ResolveIdentity(ps, b.store.ids, b.store.texts);
  }

  /** When ids are the positions, resolving in-range ids reads the texts at them. */
  lemma {:induction false} ResolveIdentity(ps: seq<nat>, ids: seq<int>, texts: seq<string>)
    requires |ids| == |texts|
    requires forall i :: 0 <= i < |ids| ==> ids[i] == i
    requires forall i :: 0 <= i < |ps| ==> ps[i] < |texts|
    ensures Resolve(ps, ids, texts) == Success(TextsAt(texts, ps))
  {
    if ps != [] {
      assert ps[0] != NoResult;
      var p := IndexOf(ids, ps[0]);
      assert ids[ps[0]] == ps[0];
      assert p == Some(ps[0] as nat);
      ResolveIdentity(ps[1..], ids, texts);
      assert TextsAt(texts, ps) == [texts[ps[0]]] + TextsAt(texts, ps[1..]);
    }
  }

  /** With an embedding that tells the stored texts apart, asking for the one
      nearest neighbour of a stored text returns that text. */
  lemma RecallStoredText(b: Brain, t: string, remote: Remote)
    requires Valid(b.store)
    requires Embeds(b.store, b.embedder, remote)
    requires t != [] && t in b.store.texts
    requires Distinguishes(b.store.texts, b.embedder, remote)
    ensures SearchMemory(b, Str(t), 1, remote) == Success([t])
  {
    var texts := b.store.texts;
    var p :| 0 <= p < |texts| && texts[p] == t;
    var q := b.store.index.entries[p].vec;
    assert GetEmbedding(b.embedder, Str(texts[p]), remote) == Success(q);
    var ps := Nearest(Distances(b.store.index, q), 1);
    NearestToStoredTextIsIt(b.store, b.embedder, remote, p, ps);
    SearchFromStoredVector(b, p, remote);
  }

  /** A one-neighbour search for the text at position `p`, whose embedding is
      the vector stored there, answers the text of that vector's nearest entry. */
  lemma SearchFromStoredVector(b: Brain, p: nat, remote: Remote)
    requires Valid(b.store)
    requires p < |b.store.texts| && b.store.texts[p] != []
    requires GetEmbedding(b.embedder, Str(b.store.texts[p]), remote) == Success(b.store.index.entries[p].vec)
    requires var ps := Nearest(Distances(b.store.index, b.store.index.entries[p].vec), 1);
             |ps| == 1 && ps[0] < |b.store.texts| && b.store.texts[ps[0]] == b.store.texts[p]
    ensures SearchMemory(b, Str(b.store.texts[p]), 1, remote) == Success([b.store.texts[p]])
  {
    var ps := Nearest(Distances(b.store.index, b.store.index.entries[p].vec), 1);
    SearchAnswersNearest(b, Str(b.store.texts[p]), 1, remote);
    assert TextsAt(b.store.texts, ps) == [b.store.texts[p]];
  }

  /** The nearest entry to a stored text's own vector holds that text. */
  lemma NearestToStoredTextIsIt(s: Store, e: Embedder, remote: Remote, p: nat, ps: seq<nat>)
    requires Valid(s) && Embeds(s, e, remote) && Distinguishes(s.texts, e, remote)
    requires p < |s.texts|
    requires IsKnn(Distances(s.index, s.index.entries[p].vec), 1, ps)
    ensures |ps| == 1 && ps[0] < |s.texts| && s.texts[ps[0]] == s.texts[p]
  {
    var q := s.index.entries[p].vec;
    var ds := Distances(s.index, q);
    SqDistZeroIffEqual(q, q);
    FirstIsNearest(ds, 1, ps, p);
    var h := ps[0];
    SqDistZeroIffEqual(s.index.entries[h].vec, q);
    assert GetEmbedding(e, Str(s.texts[h]), remote) == GetEmbedding(e, Str(s.texts[p]), remote);
  }

  /** Loading keeps a readable snapshot whose index is empty or agrees with
      the service's width; missing ids read as the positions of the texts. */
  lemma LoadKeepsAgreeingSnapshot(e: Embedder, remote: Remote, pd: ProjectDir)
    requires ReadSnapshot(pd).Loaded?
    requires NTotal(ReadSnapshot(pd).index) == 0 ||
             (GetEmbedding(e, Str(LoadProbe), remote).Success? &&
              |GetEmbedding(e, Str(LoadProbe), remote).value| == ReadSnapshot(pd).index.d)
    ensures var s := ReadSnapshot(pd);
            LoadMemory(e, remote, pd) == Store(s.index, s.texts, s.ids)
    ensures pd.textFile.value.ids.None? ==>
              var s := LoadMemory(e, remote, pd);
              |s.ids| == |s.texts| && forall i :: 0 <= i < |s.ids| ==> s.ids[i] == i
  {
  }

  /** A non-empty index whose width the service no longer produces, or that
      cannot be checked because the service fails, is discarded. */
  lemma LoadDiscardsMismatchedIndex(e: Embedder, remote: Remote, pd: ProjectDir)
    requires ReadSnapshot(pd).Loaded? && NTotal(ReadSnapshot(pd).index) > 0
    requires GetEmbedding(e, Str(LoadProbe), remote).Failure? ||
             |GetEmbedding(e, Str(LoadProbe), remote).value| != ReadSnapshot(pd).index.d
    ensures LoadMemory(e, remote, pd) == EmptyStore(e, remote)
  {
  }

  /** Opening a project whose directory holds a snapshot of `s`, with a
      service of the same width, gives back `s`. */
  lemma ReopenRestoresSnapshot(s: Store, pd: ProjectDir, projectId: string, remote: Remote,
                               base: string, apiKey: Option<string>)
    requires NewEmbedder(apiKey).Success?
    requires projectId != []
    requires ReadSnapshot(pd) == Loaded(s.index, s.texts, s.ids)
    requires GetEmbedding(NewEmbedder(apiKey).value, Str(LoadProbe), remote).Success?
    requires |GetEmbedding(NewEmbedder(apiKey).value, Str(LoadProbe), remote).value| == s.index.d
    ensures var o := Open(Str(projectId), base, apiKey, remote, pd);
            o.brain.Success? && o.brain.value.store == s && o.brain.value.embedder == NewEmbedder(apiKey).value
  {
    var pd' := MakeDirs(pd);
    assert ReadSnapshot(pd') == ReadSnapshot(pd);
    LoadKeepsAgreeingSnapshot(NewEmbedder(apiKey).value, remote, pd');
  }

  /** A project whose saved index has a width the service no longer
      produces opens empty, and then accepts embeddings of the current width. */
  lemma MismatchedProjectAcceptsNewWidth(projectId: string, base: string, apiKey: Option<string>,
                                         remote: Remote, pd: ProjectDir, text: Arg)
    requires projectId != [] && NewEmbedder(apiKey).Success?
    requires ReadSnapshot(pd).Loaded? && NTotal(ReadSnapshot(pd).index) > 0
    requires GetEmbedding(NewEmbedder(apiKey).value, Str(LoadProbe), remote).Success?
    requires |GetEmbedding(NewEmbedder(apiKey).value, Str(LoadProbe), remote).value| != ReadSnapshot(pd).index.d
    requires GetEmbedding(NewEmbedder(apiKey).value, Str(DimensionProbe), remote).Success?
    requires GetEmbedding(NewEmbedder(apiKey).value, text, remote).Success?
    requires |GetEmbedding(NewEmbedder(apiKey).value, text, remote).value| ==
             |GetEmbedding(NewEmbedder(apiKey).value, Str(DimensionProbe), remote).value|
    ensures var o := Open(Str(projectId), base, apiKey, remote, pd);
            && o.brain.Success?
            && o.brain.value.store == EmptyStore(NewEmbedder(apiKey).value, remote)
            && o.brain.value.store.texts == []
            && var a := AddMemory(o.brain.value, o.disk, text, remote);
               a.status.Done? && a.brain.store.texts == [text.s]
  {
    var e := NewEmbedder(apiKey).value;
    var pd' := MakeDirs(pd);
    assert ReadSnapshot(pd') == ReadSnapshot(pd);
    LoadDiscardsMismatchedIndex(e, remote, pd');
  }

  /** Reopening a project after a run of completed additions restores exactly
      the in-memory store, provided the service still has the same width. */
  lemma ReopenAfterAddsRestoresStore(b: Brain, pd: ProjectDir, items: seq<string>, remote: Remote,
                                     base: string, apiKey: Option<string>)
    requires NewEmbedder(apiKey).Success? && b.embedder == NewEmbedder(apiKey).value
    requires b.projectId != [] && b.projectPath == JoinPath(base, b.projectId)
    requires Valid(b.store) && Embeds(b.store, b.embedder, remote)
    requires items != [] && AddAll(b, pd, items, remote).status.Done?
    requires GetEmbedding(b.embedder, Str(LoadProbe), remote).Success?
    requires |GetEmbedding(b.embedder, Str(LoadProbe), remote).value| == b.store.index.d
    ensures var r := AddAll(b, pd, items, remote);
            var o := Open(Str(b.projectId), base, apiKey, remote, r.disk);
            && o.brain.Success? && o.brain.value.projectPath == b.projectPath
            && o.brain.value.store == r.brain.store && o.brain.value.embedder == b.embedder
  {
    var r := AddAll(b, pd, items, remote);
    AddAllAppends(b, pd, items, remote);
    ReopenRestoresSnapshot(r.brain.store, r.disk, b.projectId, remote, base, apiKey);
  }

  /** Texts added, then reopened, are found again by searching for themselves
      (one neighbour), when the embedding tells the texts apart. */
  lemma RecallAfterReopen(b: Brain, pd: ProjectDir, items: seq<string>, remote: Remote,
                          base: string, apiKey: Option<string>, j: nat)
    requires NewEmbedder(apiKey).Success? && b.embedder == NewEmbedder(apiKey).value
    requires b.projectId != [] && b.projectPath == JoinPath(base, b.projectId)
    requires Valid(b.store) && Embeds(b.store, b.embedder, remote)
    requires j < |items| && AddAll(b, pd, items, remote).status.Done?
    requires GetEmbedding(b.embedder, Str(LoadProbe), remote).Success?
    requires |GetEmbedding(b.embedder, Str(LoadProbe), remote).value| == b.store.index.d
    requires Distinguishes(b.store.texts + items, b.embedder, remote)
    ensures var r := AddAll(b, pd, items, remote);
            var o := Open(Str(b.projectId), base, apiKey, remote, r.disk);
            && o.brain.Success? && o.brain.value.projectPath == b.projectPath
            && SearchMemory(o.brain.value, Str(items[j]), 1, remote) == Success([items[j]])
  {
    var r := AddAll(b, pd, items, remote);
    AddAllAppends(b, pd, items, remote);
    ReopenRestoresSnapshot(r.brain.store, r.disk, b.projectId, remote, base, apiKey);
    var b' := Open(Str(b.projectId), base, apiKey, remote, r.disk).brain.value;
    RecallAfterAdds(b, b', items, remote, j);
  }

  /** The recall step of `RecallAfterReopen`, on the reopened brain `b'`. */
  lemma RecallAfterAdds(b: Brain, b': Brain, items: seq<string>, remote: Remote, j: nat)
    requires j < |items|
    requires b'.embedder == b.embedder
    requires Valid(b'.store) && Embeds(b'.store, b.embedder, remote)
    requires b'.store.texts == b.store.texts + items
    requires forall i :: 0 <= i < |items| ==> items[i] != []
    requires Distinguishes(b.store.texts + items, b.embedder, remote)
    ensures SearchMemory(b', Str(items[j]), 1, remote) == Success([items[j]])
  {
    assert b'.store.texts[|b.store.texts| + j] == items[j];
    RecallStoredText(b', items[j], remote);
  }

  /** Deleting and then opening the same project yields the empty store, and
      opening recreates the directory that deleting removed. */
  lemma DeleteThenReopenIsEmpty(b: Brain, pd: ProjectDir, remote: Remote, base: string, apiKey: Option<string>)
    requires Coherent(pd)
    requires b.projectId != [] && b.projectPath == JoinPath(base, b.projectId) && NewEmbedder(apiKey).Success?
    ensures var d := DeleteMemory(b, pd, Removed, remote);
            var o := Open(Str(b.projectId), base, apiKey, remote, d.disk);
            && !d.disk.dirExists
            && o.brain.Success? && o.brain.value.projectPath == b.projectPath
            && o.brain.value.store == EmptyStore(NewEmbedder(apiKey).value, remote)
            && o.disk.dirExists
  {
  }

  /** After a deletion removed the directory, a completed embedding is added
      to memory but cannot be saved: memory holds the text, disk holds nothing. */
  lemma AddAfterDeleteOutrunsDisk(b: Brain, pd: ProjectDir, text: Arg, remote: Remote)
    requires pd.dirExists
    requires NonEmptyString(text)
    requires GetEmbedding(b.embedder, text, remote).Success?
    requires |GetEmbedding(b.embedder, text, remote).value| == EmptyDimension(b.embedder, remote)
    ensures var d := DeleteMemory(b, pd, Removed, remote);
            var a := AddMemory(d.brain, d.disk, text, remote);
            && a.status == Raised(WriteFailed)
            && a.brain.store.texts == [text.s]
            && NTotal(a.brain.store.index) == 1
            && ReadSnapshot(a.disk) == Missing
  {
  }
}

=== FILE: ranking.dfy ===
/** Exact k-nearest-neighbour selection over a list of distances, as a flat
    (brute-force) index performs it: the specification `IsKnn`, which leaves
    the order among equal distances open, and one selection `Ranked` that
    meets it. Positions index the distance list. */
module Ranking {
  import opened Types

  predicate Distinct(s: seq<nat>) {
    forall i, j :: 0 <= i < j < |s| ==> s[i] != s[j]
  }

  /** `s` without its element at `j`. */
  function RemoveAt(s: seq<nat>, j: nat): (r: seq<nat>)
    requires j < |s|
    ensures |r| == |s| - 1
    ensures forall i :: 0 <= i < j ==> r[i] == s[i]
    ensures forall i :: j < i < |s| ==> r[i - 1] == s[i]
  {
    s[..j] + s[j + 1..]
  }

  lemma RemoveAtMembers(s: seq<nat>, j: nat)
    requires j < |s|
    requires Distinct(s)
    ensures Distinct(RemoveAt(s, j))
    ensures forall x :: x in RemoveAt(s, j) <==> x in s && x != s[j]
  {
    var r := RemoveAt(s, j);
    forall x | x in s && x != s[j]
      ensures x in r
    {
      var i :| 0 <= i < |s| && s[i] == x;
      if i < j { assert r[i] == x; } else { assert r[i - 1] == x; }
    }
  }

  /** The candidate (an index into `cs`) whose distance is smallest. */
  function NearestAt(ds: seq<nat>, cs: seq<nat>): (j: nat)
    requires |cs| > 0
    requires forall i :: 0 <= i < |cs| ==> cs[i] < |ds|
    ensures j < |cs|
    ensures forall i :: 0 <= i < |cs| ==> ds[cs[j]] <= ds[cs[i]]
  {
    if |cs| == 1 then 0
    else
      var j := NearestAt(ds, cs[..|cs| - 1]);
      if ds[cs[|cs| - 1]] < ds[cs[j]] then |cs| - 1 else j
  }

  /** `ps` picks `min(k, |cs|)` distinct candidates in ascending order of
      distance, none farther than a candidate left out. */
  ghost predicate SelectsNearest(ds: seq<nat>, cs: seq<nat>, k: nat, ps: seq<nat>)
    requires forall i :: 0 <= i < |cs| ==> cs[i] < |ds|
  {
    && |ps| == Min(k, |cs|)
    && (forall i :: 0 <= i < |ps| ==> ps[i] in cs)
    && Distinct(ps)
    && (forall i, j :: 0 <= i < j < |ps| ==> ds[ps[i]] <= ds[ps[j]])
    && (forall i, c :: 0 <= i < |ps| && c in cs && c !in ps ==> ds[ps[i]] <= ds[c])
  }

  /** Putting the nearest candidate in front of a selection from the others
      is a selection from all of them. */
  lemma {:induction false} NearestThenRest(ds: seq<nat>, cs: seq<nat>, j: nat, k: nat, tail: seq<nat>)
    requires forall i :: 0 <= i < |cs| ==> cs[i] < |ds|
    requires Distinct(cs)
    requires k >= 1
    requires j < |cs|
    requires forall i :: 0 <= i < |cs| ==> ds[cs[j]] <= ds[cs[i]]
    requires SelectsNearest(ds, RemoveAt(cs, j), k - 1, tail)
    ensures SelectsNearest(ds, cs, k, [cs[j]] + tail)
  {
    var rest := RemoveAt(cs, j);
    RemoveAtMembers(cs, j);
    var ps := [cs[j]] + tail;
    assert forall t :: 0 <= t < |tail| ==> tail[t] in cs && tail[t] != cs[j] by {
      forall t | 0 <= t < |tail| ensures tail[t] in cs && tail[t] != cs[j] {
        assert tail[t] in rest;
      }
    }
    ConsMembers(cs, cs[j], tail);
    ConsSorted(ds, cs, j, tail);
    ConsBound(ds, cs, j, tail);
  }

  lemma ConsMembers(cs: seq<nat>, x: nat, tail: seq<nat>)
    requires x in cs
    requires forall t :: 0 <= t < |tail| ==> tail[t] in cs
    ensures forall i :: 0 <= i < |[x] + tail| ==> ([x] + tail)[i] in cs
  {
    forall i | 0 <= i < |[x] + tail| ensures ([x] + tail)[i] in cs {
      if i > 0 { assert ([x] + tail)[i] == tail[i - 1]; }
    }
  }

  lemma ConsSorted(ds: seq<nat>, cs: seq<nat>, j: nat, tail: seq<nat>)
    requires forall i :: 0 <= i < |cs| ==> cs[i] < |ds|
    requires j < |cs|
    requires forall i :: 0 <= i < |cs| ==> ds[cs[j]] <= ds[cs[i]]
    requires forall t :: 0 <= t < |tail| ==> tail[t] in cs && tail[t] != cs[j]
    requires Distinct(tail)
    requires forall i, i' :: 0 <= i < i' < |tail| ==> ds[tail[i]] <= ds[tail[i']]
    ensures Distinct([cs[j]] + tail)
    ensures forall i, i' :: 0 <= i < i' < |[cs[j]] + tail| ==> ds[([cs[j]] + tail)[i]] <= ds[([cs[j]] + tail)[i']]
  {
    var ps := [cs[j]] + tail;
    forall i, i' | 0 <= i < i' < |ps|
      ensures ps[i] != ps[i'] && ds[ps[i]] <= ds[ps[i']]
    {
      assert ps[i'] == tail[i' - 1];
      if i == 0 {
        var m :| 0 <= m < |cs| && cs[m] == tail[i' - 1];
      } else {
        assert ps[i] == tail[i - 1];
      }
    }
  }

  lemma ConsBound(ds: seq<nat>, cs: seq<nat>, j: nat, tail: seq<nat>)
    requires forall i :: 0 <= i < |cs| ==> cs[i] < |ds|
    requires Distinct(cs)
    requires j < |cs|
    requires forall i :: 0 <= i < |cs| ==> ds[cs[j]] <= ds[cs[i]]
    requires forall t :: 0 <= t < |tail| ==> tail[t] in cs
    requires forall i, c :: 0 <= i < |tail| && c in RemoveAt(cs, j) && c !in tail ==> ds[tail[i]] <= ds[c]
    ensures forall i, c :: 0 <= i < |[cs[j]] + tail| && c in cs && c !in [cs[j]] + tail ==>
              ds[([cs[j]] + tail)[i]] <= ds[c]
  {
    RemoveAtMembers(cs, j);
    var ps := [cs[j]] + tail;
    forall i, c | 0 <= i < |ps| && c in cs && c !in ps
      ensures ds[ps[i]] <= ds[c]
    {
      var m :| 0 <= m < |cs| && cs[m] == c;
      if i > 0 {
        assert ps[i] == tail[i - 1];
        assert c in RemoveAt(cs, j);
        assert c !in tail;
      }
    }
  }

  /** Repeatedly takes the nearest remaining candidate, `k` times at most. */
  function Ranked(ds: seq<nat>, cs: seq<nat>, k: nat): (ps: seq<nat>)
    requires forall i :: 0 <= i < |cs| ==> cs[i] < |ds|
    requires Distinct(cs)
    ensures SelectsNearest(ds, cs, k, ps)
    decreases k
  {
    if k == 0 || |cs| == 0 then []
    else
      var j := NearestAt(ds, cs);
      RemoveAtMembers(cs, j);
      var tail := Ranked(ds, RemoveAt(cs, j), k - 1);
      NearestThenRest(ds, cs, j, k, tail);
      [cs[j]] + tail
  }

  /** `ps` are the positions of the `min(k, |ds|)` smallest distances, in
      ascending order of distance; equal distances may come in any order. */
  ghost predicate IsKnn(ds: seq<nat>, k: nat, ps: seq<nat>) {
    && |ps| == Min(k, |ds|)
    && Distinct(ps)
    && (forall i :: 0 <= i < |ps| ==> ps[i] < |ds|)
    && (forall i, j :: 0 <= i < j < |ps| ==> ds[ps[i]] <= ds[ps[j]])
    && (forall i, p :: 0 <= i < |ps| && 0 <= p < |ds| && p !in ps ==> ds[ps[i]] <= ds[p])
  }

  /** The positions a flat index returns for a query with distances `ds`. */
  function Nearest(ds: seq<nat>, k: nat): (ps: seq<nat>)
    ensures IsKnn(ds, k, ps)
  {
    var cs := Range(|ds|);
    assert forall p :: 0 <= p < |ds| ==> p in cs by {
      forall p | 0 <= p < |ds| ensures p in cs { assert cs[p] == p; }
    }
    Ranked(ds, cs, k)
  }

  /** The first answer is at least as near as every position. */
  lemma {:induction false} FirstIsNearest(ds: seq<nat>, k: nat, ps: seq<nat>, p: nat)
    requires IsKnn(ds, k, ps)
    requires k >= 1
    requires p < |ds|
    ensures |ps| >= 1 && ds[ps[0]] <= ds[p]
  {
    if p in ps {
      var i :| 0 <= i < |ps| && ps[i] == p;
      if i > 0 {
        assert ds[ps[0]] <= ds[ps[i]];
      }
    }
  }
}

=== FILE: storage.dfy ===
/** The project's directory on disk: whether it exists, and the state of its
    two files, the serialised index (`index.faiss`) and the JSON text data
    (`text_data.json`, an object with keys `texts` and `ids`). Paths are
    joined the way `os.path.join` joins two POSIX components. */
module Storage {
  import opened Types
  import opened FlatIndex

  const IndexFileName: string := "index.faiss"
  const TextDataFileName: string := "text_data.json"

  /** A file that is absent, present but unreadable, or holds a readable value. */
  datatype Stored<T> = Absent | Corrupt | Present(value: T)

  /** The parsed JSON object; either key may be missing. */
  datatype TextData = TextData(texts: Option<seq<string>>, ids: Option<seq<int>>)

  datatype ProjectDir = ProjectDir(dirExists: bool, indexFile: Stored<Index>, textFile: Stored<TextData>)

  /** Files live inside the directory: no directory, no files. */
  predicate Coherent(pd: ProjectDir) {
    !pd.dirExists ==> pd.indexFile.Absent? && pd.textFile.Absent?
  }

  /** What reading the two files yields. */
  datatype Snapshot =
    | Missing                                          // one of the files does not exist
    | Unreadable                                       // reading or parsing raised
    | Loaded(index: Index, texts: seq<string>, ids: seq<int>)

  /** `os.path.join(base, name)` for two POSIX components. */
  function JoinPath(base: string, name: string): (p: string)
    ensures |p| >= |name| && p[|p| - |name|..] == name
    ensures |name| > 0 && name[0] == '/' ==> p == name
    ensures (|name| == 0 || name[0] != '/') ==> |p| >= |base| && p[..|base|] == base
    ensures (|name| == 0 || name[0] != '/') && (base == [] || base[|base| - 1] == '/') ==>
              p == base + name
    ensures (|name| == 0 || name[0] != '/') && base != [] && base[|base| - 1] != '/' ==>
              p == base + "/" + name
  {
    if |name| > 0 && name[0] == '/' then name
    else if base == [] || base[|base| - 1] == '/' then base + name
    else base + "/" + name
  }

  /** The index file and the text file of a project are two different paths,
      both inside the project's directory. */
  lemma ProjectFilesInsideDirectory(dir: string)
    ensures JoinPath(dir, IndexFileName)[..|dir|] == dir
    ensures JoinPath(dir, TextDataFileName)[..|dir|] == dir
    ensures JoinPath(dir, IndexFileName) != JoinPath(dir, TextDataFileName)
  {
    var sep: string := if dir == [] || dir[|dir| - 1] == '/' then "" else "/";
    assert JoinPath(dir, IndexFileName) == dir + sep + IndexFileName;
    assert JoinPath(dir, TextDataFileName) == dir + sep + TextDataFileName;
  }

  /** Reads the index file, then the JSON file; a missing `texts` key reads as
      no texts and a missing `ids` key as the positions of the texts. */
  function ReadSnapshot(pd: ProjectDir): (s: Snapshot)
    ensures s.Missing? <==> pd.indexFile.Absent? || pd.textFile.Absent?
    ensures s.Unreadable? <==> !s.Missing? && (pd.indexFile.Corrupt? || pd.textFile.Corrupt?)
    ensures s.Loaded? ==>
              && s.index == pd.indexFile.value
              && s.texts == pd.textFile.value.texts.GetOr([])
              && (pd.textFile.value.ids.Some? ==> s.ids == pd.textFile.value.ids.value)
              && (pd.textFile.value.ids.None? ==>
                    |s.ids| == |s.texts| && forall i :: 0 <= i < |s.ids| ==> s.ids[i] == i)
  {
    if pd.indexFile.Absent? || pd.textFile.Absent? then Missing
    else if pd.indexFile.Corrupt? || pd.textFile.Corrupt? then Unreadable
    else
      var texts := pd.textFile.value.texts.GetOr([]);
      Loaded(pd.indexFile.value, texts, pd.textFile.value.ids.GetOr(Range(|texts|)))
  }

  /** Writes the index file, then the JSON file; opening the index file for
      writing fails when the directory is gone, and nothing is written. */
  function WriteSnapshot(pd: ProjectDir, ix: Index, texts: seq<string>, ids: seq<int>): (r: Result<ProjectDir>)
    ensures r.Failure? <==> !pd.dirExists
    ensures r.Failure? ==> r.error == WriteFailed
    ensures r.Success? ==> r.value.dirExists && ReadSnapshot(r.value) == Loaded(ix, texts, ids)
  {
    if !pd.dirExists then Failure(WriteFailed)
    else Success(ProjectDir(true, Present(ix), Present(TextData(Some(texts), Some(ids)))))
  }

  /** `os.makedirs(path, exist_ok=True)`: creates the directory, keeps its files. */
  function MakeDirs(pd: ProjectDir): (pd': ProjectDir)
    ensures pd'.dirExists
    ensures pd'.indexFile == pd.indexFile && pd'.textFile == pd.textFile
  {
    pd.(dirExists := true)
  }

  /** What `shutil.rmtree` did: removed everything, or raised `OSError`
      after leaving `remaining` behind. */
  datatype Removal = Removed | RemoveFailed(remaining: ProjectDir)

  /** An empty, absent directory. */
  const Gone: ProjectDir := ProjectDir(false, Absent, Absent)

  /** `shutil.rmtree(path)` on an existing directory. */
  function RemoveTree(pd: ProjectDir, removal: Removal): (pd': ProjectDir)
    requires pd.dirExists
    ensures removal.Removed? ==> !pd'.dirExists && ReadSnapshot(pd') == Missing
    ensures removal.RemoveFailed? ==> pd' == removal.remaining
  {
    match removal
    case Removed => Gone
    case RemoveFailed(rest) => rest
  }
}

=== FILE: types.dfy ===
/** Shared value types of the memory store: optional values, results that
    carry the store's error taxonomy, and embedding vectors. */
module Types {

  /** A value that may be absent (Python's `None`, or a missing JSON key). */
  datatype Option<+T> = None | Some(value: T) {
    /** The carried value, or `default` when absent (Python's `dict.get(key, default)`). */
    function GetOr(default: T): T {
      match this
      case Some(v) => v
      case None => default
    }
  }

  /** Why the remote embedding service failed; carried through unchanged. */
  datatype ProviderFailure =
    | ApiError(detail: string)         // an `openai.APIError`
    | UnexpectedError(detail: string)  // any other exception raised by the client

  /** Every exception the modelled operations can let escape to their caller. */
  datatype Error =
    | InvalidInput                     // ValueError: empty or non-string argument
    | MissingApiKey                    // ValueError: OPENAI_API_KEY unset or empty
    | Provider(failure: ProviderFailure)
    | EmptyResponse                    // IndexError: the service returned no embedding
    | DimensionMismatch                // index library: vector width differs from the index's
    | NonPositiveK                     // index library: a search for fewer than one neighbour
    | UnknownId(id: int)               // ValueError from `ids.index(id)`
    | TextOutOfRange(pos: nat)         // IndexError from `texts[pos]`
    | WriteFailed                      // the index file could not be opened for writing

  /** The outcome of an operation that may raise. */
  datatype Result<+T> = Success(value: T) | Failure(error: Error)

  /** An embedding. Floats are abstracted to integers. */
  type Vector = seq<int>

  /** Python's `min(a, b)`. */
  function Min(a: int, b: int): int {
    if a <= b then a else b
  }

  /** The positions 0, 1, ..., n-1 in order (Python's `list(range(n))`). */
  function Range(n: nat): (r: seq<nat>)
    ensures |r| == n
    ensures forall i :: 0 <= i < n ==> r[i] == i
  {
    if n == 0 then [] else Range(n - 1) + [n - 1]
  }
}
